=== FILE: README.md ===
# Image classifier core, modelled in Dafny

`guess_image.py` sorts unlabelled images into classes. Each class is a
folder of labelled images. The program averages the embeddings of each
folder's images into a centroid. It predicts the class whose centroid is
nearest to the new image's embedding. It asks the user to confirm the
prediction or to correct it from a numbered menu. Each decision is appended
to a ledger, `labels.txt`, as a line `<filename> <label>`.

This project models that logic with the embedding network abstracted away.
Each image arrives with its embedding, a `seq<real>`. The modules follow
the program's pieces:

| file | module | models |
|---|---|---|
| `wrappers.dfy` | `Wrappers` | `Option` |
| `dicts.dfy` | `Dicts` | a Python `dict` as an insertion-ordered list of pairs: `d[k] = v`, and a key lookup used to state what assignment does |
| `vectors.dfy` | `Vectors` | column sums and `calculate_distance`, squared |
| `text.dfy` | `Text` | `str.lower()`, `str.endswith`, `str.split()`, line iteration over a text file, `str(n)`, `int(s)` |
| `centroids.dfy` | `Centroids` | `generate_sorted_data`: the suffix filter, the mean, the map of centroids |
| `classify.dfy` | `Classify` | `guess_image_class`: the scan for the nearest centroid, plus a worked two-class example |
| `ledger.dfy` | `Ledger` | `update_labels` and `read_labels` |
| `menu.dfy` | `Menu` | the correction menu of `main` |

Modelling decisions:

- **Directory listings are inputs.** A listing is a sequence of `Entry`
  values in `os.listdir` order. Each entry is a `Folder(name, files)` or a
  `NotFolder(name)`. Each file is an `Image(name, features)`.
- **Dicts are insertion-ordered lists of pairs.** The centroid map and the
  label map are both `Dict`s. Iteration order is insertion order, as in
  Python. Storing under an existing key keeps its position.
- **Averaging can fail.** The mean runs over the coordinates of the first
  embedding. If a later embedding is shorter, Python raises `IndexError`,
  and `Centroid` returns `None` for it. Longer embeddings are cut.
- **Distance is squared.** It is compared over `real` without `sqrt`,
  which is monotone, so the predicted class is the same. `zip` stops at
  the shorter vector, and so does the model.
- **An empty centroid map predicts no class.** The loop never runs, so
  `guess_image_class` returns `None`. `Nearest` returns `None` for an
  empty map. An empty map is arguably an error, but the code does not
  raise one; the model follows the code.
- **The ledger is text.** A file is `Option<string>`, where `None` means
  it is missing. Reading cuts the text after every `'\n'`, as Python's
  file iteration does. `split()` separates on Python's whitespace
  characters: ASCII 9-13 and 28-32, and the Unicode space and
  line-separator code points.
- **Menu replies are a sequence of strings.** The class list is an input.
  `int(reply)` is modelled as surrounding whitespace, at most one sign,
  then ASCII digits. The whitespace `int()` ignores is narrower than that
  of `split()`: ASCII 9-13 and 32, and the non-ASCII whitespace, but not
  the ASCII separators 28-31.

## Model

| member | source | states |
|---|---|---|
| Centroids.IsImageName | guess_image.py:29 | the lower-cased name ends in `.jpg`, `.jpeg` or `.png` |
| Centroids.ImageNameIgnoresCase | guess_image.py:29 | a name qualifies exactly when its lower-cased form does |
| Centroids.UpperCaseImageName | guess_image.py:29 | `A.JPG` qualifies |
| Centroids.InnerExtensionNotImage | guess_image.py:29 | `a.jpg.bak` does not qualify: only the suffix counts |
| Centroids.ImageFeatures | guess_image.py:26-32 | the folder contributes at most one embedding per file |
| Centroids.ImageFeaturesSingle | guess_image.py:28-32 | one file contributes its embedding exactly when its name is an image name |
| Centroids.ImageFeaturesAppend | guess_image.py:28-32 | the contributions of two listings in a row are those of the first followed by those of the second, so order and repetitions are those of the listing |
| Centroids.ImageFeaturesMembers | guess_image.py:28-32 | an embedding is among the folder's contributions exactly when some file with an image name carries it |
| Centroids.ImageFeaturesAllImages | guess_image.py:28-32 | when every file has an image name, every file contributes, in listing order |
| Centroids.ImageFeaturesNoImages | guess_image.py:28-32 | a folder with no image-named file contributes nothing |
| Centroids.Centroid | guess_image.py:34-38 | fails exactly when a later embedding is shorter than the first; otherwise the result has the first embedding's length, and coordinate `i` is the sum of coordinate `i` over the class divided by the class size |
| Centroids.CentroidOfCopies | guess_image.py:35-38 | averaging copies of one embedding gives it back |
| Centroids.CentroidBounded | guess_image.py:35-38 | each centroid coordinate lies between the class's smallest and largest value there |
| Centroids.CentroidPermutation | guess_image.py:35-38 | with equal-length embeddings, any reordering of a class's images has the same centroid |
| Centroids.BuildCentroids | guess_image.py:19-41 | the whole build fails exactly when the average of some folder with images fails |
| Centroids.BuildCentroidsKeys | guess_image.py:22-39 | a name is a key exactly when some directory of that name has an image file; empty folders and plain files get no entry |
| Centroids.BuildCentroidsValues | guess_image.py:34-39 | the key of a folder holds that folder's centroid |
| Centroids.BuildCentroidsWf | guess_image.py:39 | each class name is a key once |
| Centroids.BuildCentroidsOrder | guess_image.py:22-39 | with distinct folder names, the map iterates over the qualifying folders in listing order |
| Vectors.SqDist | guess_image.py:58-59 | the distance is never negative |
| Vectors.SqDistSymmetric | guess_image.py:58-59 | the distance from `a` to `b` equals that from `b` to `a` |
| Vectors.SqDistZeroIff | guess_image.py:58-59 | the distance is zero exactly when the vectors agree on the coordinates `zip` pairs; a vector is at distance zero from itself |
| Vectors.SqDistTruncates | guess_image.py:59 | only the first `min(len a, len b)` coordinates count; extending the longer vector changes nothing |
| Vectors.ColumnSum | guess_image.py:36 | `sum(feature[i] for feature in type_features)`, added from 0 in listing order; no contract of its own: Vectors.ColumnSumOfCopies gives the sum over a single embedding (its own coordinate) and Vectors.ColumnSumAppend splits any list, which together fix every value |
| Vectors.ColumnSumOfCopies | guess_image.py:36 | the column sum over `n` copies of one embedding is `n` times its coordinate |
| Vectors.ColumnSumBounds | guess_image.py:36 | a column sum of `n` values between `lo` and `hi` lies between `n*lo` and `n*hi` |
| Vectors.ColumnSumAppend | guess_image.py:36 | a column sum over two groups of embeddings is the sum of the two groups' column sums |
| Vectors.ColumnSumPermutation | guess_image.py:36 | a column sum does not depend on the order of the embeddings |
| Classify.Scan | guess_image.py:64-73 | the strict-`<` scan ends on an entry that is no farther than any other and strictly nearer than every earlier one; no entry only for an empty map |
| Classify.Nearest | guess_image.py:61-73 | no class exactly when the map is empty; otherwise a key of the map whose centroid is the first nearest |
| Classify.FirstNearestUnique | guess_image.py:69 | the first nearest entry is unique, so the prediction is determined |
| Classify.NearestIsClosest | guess_image.py:64-73 | no class is nearer to the query than the predicted one |
| Classify.NearestTieGoesEarlier | guess_image.py:69 | a class tied with or beaten by an earlier one is never predicted |
| Classify.NearestExactMatch | guess_image.py:64-73 | when all centroids are pairwise distinct and of the query's length, a query equal to one of them is classified as that centroid's class |
| Classify.CatDogCentroids | guess_image.py:19-41 | folders `cat` with images at (0, 0) and (2, 0) and `dog` with one at (10, 10) give centroids (1, 0) and (10, 10), in that order |
| Classify.CatDogExample | guess_image.py:19-41 | the same with the image names `v1.jpg`, `v2.jpg`, `v3.jpg` |
| Classify.CatDogQuery | guess_image.py:61-73 | the query (1, 1) is classified as `cat` |
| Dicts.Put | guess_image.py:39 | assigning an existing key keeps the positions of all keys; a new key is appended |
| Dicts.GetPut | guess_image.py:51 | after assignment the key holds the new value and every other key what it held |
| Dicts.PutKeepsWf | guess_image.py:51 | assignment keeps keys distinct |
| Ledger.RecordLine | guess_image.py:77 | the line is the filename, then one space, then the label, then a final newline, and nothing else |
| Ledger.AppendRecord | guess_image.py:75-77 | appending keeps the old text as a prefix, adds exactly the record line at the end, creates a missing file, and leaves the file ending in a newline |
| Ledger.ReadLines | guess_image.py:47-51 | the loop over the lines; no contract of its own: Ledger.LabelPresent, Ledger.LastLineWins and Ledger.ReadLinesWf fix its result up to the order of the keys |
| Ledger.ReadLabels | guess_image.py:43-56 | a missing file reads as no labels, and every filename is a key once |
| Ledger.ParseLine | guess_image.py:48-50 | no record exactly when the line has fewer than two whitespace-separated pieces; otherwise the record is the first piece and the second piece, both non-empty and free of whitespace |
| Ledger.RecordLineRoundTrip | guess_image.py:77 | the line written for a whitespace-free filename and label is one line, and reads back as exactly that pair |
| Ledger.ExtraTokensIgnored | guess_image.py:48-50 | with any whitespace before, between and after two whitespace-free words, the line reads as those two words, whatever follows them |
| Ledger.SpacedFilenameMisread | guess_image.py:48-50 | a filename with a space is misread: `my photo.jpg` labelled `cat` reads back as the label `photo.jpg` for `my` |
| Ledger.ShortLineIgnored | guess_image.py:49 | a line with fewer than two pieces leaves the labels unchanged |
| Ledger.ReadLinesWf | guess_image.py:51 | each filename is a key once |
| Ledger.LabelPresent | guess_image.py:47-51 | a filename has a label exactly when some line names it |
| Ledger.LastLineWins | guess_image.py:47-51 | a filename's label comes from the last line that names it |
| Ledger.MissingLedgerEmpty | guess_image.py:52-53 | a missing ledger reads as no labels |
| Ledger.AppendThenRead | guess_image.py:75-77 | for a ledger that is missing, empty or ends in a newline, and a whitespace-free, non-empty filename and label, appending a record and reading back gives the old labels with that filename set to that label |
| Ledger.LedgerRoundTrip | guess_image.py:43-56 | a ledger written only by `update_labels`, with whitespace-free, non-empty filenames and labels, reads back as the recorded decisions, the last one for each file winning |
| Menu.Resolve | guess_image.py:155-168 | a reply asks for a new class exactly when it lower-cases to `n`; it picks `classes[k-1]` exactly when it is no `n`, parses as the integer `k`, and `0 <= k-1 < len(classes)`; otherwise the menu prompts again |
| Menu.ControlCharReprompts | guess_image.py:160-168 | the reply `"\x1c1"` is no number to `int()`, so the menu prompts again |
| Menu.NewClassReplies | guess_image.py:156 | only the replies `n` and `N` ask for a new class |
| Menu.MenuNumberSelects | guess_image.py:150-164 | the number printed in front of a class selects exactly that class |
| Menu.OutOfRangeReprompts | guess_image.py:160-166 | `0` and numbers past the list prompt again, also with a `-` in front |
| Menu.NegativeReprompts | guess_image.py:160-166 | every negative number prompts again, whatever the list |
| Menu.ChooseClass | guess_image.py:154-168 | the loop skips every reply that prompts again; a number selects its class and leaves the list unchanged; `n` takes the next reply as the new class and appends it to the list |
| Text.Lower | guess_image.py:29 | lower-casing acts character by character |
| Text.Split | guess_image.py:48 | every piece is non-empty and free of whitespace |
| Text.SplitSkipsSpaces | guess_image.py:48 | whitespace in front of a string does not change its pieces |
| Text.SplitToken | guess_image.py:48 | a whitespace-free word followed by whitespace or the end is split off as the first piece |
| Text.Lines | guess_image.py:47 | every line read is non-empty |
| Text.LinesJoin | guess_image.py:47 | the lines put back together are the text, and every line but the last ends in its only newline |
| Text.LinesNoInnerNewline | guess_image.py:47 | no line, the last one included, holds a newline before its final character |
| Text.LinesAppend | guess_image.py:47 | appending a whole line to newline-terminated text adds exactly that line to the lines read |
| Text.ParseShowNat | guess_image.py:161 | `int(str(n)) == n`, also with surrounding `int()` whitespace, a `+` or a `-` |
| Text.ParseInt | guess_image.py:161 | `int(s)` on a decimal literal; no contract of its own, its meaning is given by Text.ParseIntIff |
| Text.ParseIntIff | guess_image.py:161 | `int(s)` is `k` exactly when `s` is `int()` whitespace, an optional `+` or `-`, at least one decimal digit and `int()` whitespace, and the sign and digits denote `k` |
| Text.ParseIntAccepts | guess_image.py:161 | everything `int()` accepts is such a padded literal of the value returned |
| Text.ParseIntLiteral | guess_image.py:161 | every such padded literal is accepted with its value |
| Text.TrimmedPadding | guess_image.py:161 | stripping removes only `int()` whitespace, and only from the two ends |
| Text.ControlCharNotIntSpace | guess_image.py:161 | U+001C separates words for `split()` but is not whitespace to `int()`: `"\x1c1"` is no number |
| Text.ShowNat | guess_image.py:151 | `str(n)` is a non-empty string of decimal digits |
| Text.ShowNatValue | guess_image.py:151 | the decimal digits printed for `n` denote `n` |

## Left out

- The embedding network (`utils.py`: `load_network`, `transform_image`).
  Embeddings are given with the images. utils.py is not part of this model.
  A failing `transform_image` (an image that cannot be decoded, or a
  subdirectory with an image name inside a class folder) raises and ends
  `generate_sorted_data`; the model has no such failure.
- Filesystem effects: `os.listdir`, `os.path.isdir`, `os.makedirs`,
  `os.rename`, and `move_image_to_class`. Listings are inputs and moves are
  not modelled.
- `get_available_classes`, which sorts the folder names. The class list is
  an input to the menu.
- The rest of the interactive loop of `main`: `print`, the y/n prompts
  (lines 136-142 and 174), and picking the first unsorted image. Only the
  correction menu is modelled.
- IEEE floating point, `float('inf')`, NaN and `math.sqrt`. Embeddings are
  `real`, and distances are compared squared.
- Classify.Nearest: the starting value `float('inf')` is modelled as "no
  best yet". A NaN distance, which never compares smaller, is not modelled.
- Text.Lower: only ASCII letters are lower-cased. Python's `str.lower()`
  also maps non-ASCII letters.
- Text.ParseInt: `int()` also accepts `_` between digits and non-ASCII
  decimal digits. These are not modelled: the model rejects them. CPython
  also refuses a literal of more than 4300 digits, leading zeros included
  (`sys.set_int_max_str_digits`); the model has no such limit.
- Text.ParseShowNat: holds in CPython only for literals of at most 4300
  digits, for the same reason.
- Text.ParseIntIff: describes `int()` up to the gaps of Text.ParseInt above.
- Text.ParseIntAccepts: CPython's `int()` also accepts `_` between digits
  (`1_0`) and non-ASCII decimal digits, which are no such literal; the
  lemma speaks of the model's ParseInt, which rejects them.
- Text.ParseIntLiteral: CPython refuses such a literal of more than 4300
  digits; the lemma speaks of the model's ParseInt, which has no limit.
- Menu.Resolve: inherits the gaps of Text.ParseInt. A reply such as `1_0`
  or a non-ASCII digit prompts again in the model, where Python would
  select a class. A reply of more than 4300 digits with leading zeros,
  such as 4300 zeros followed by `1`, selects a class in the model, where
  CPython's `int()` raises a `ValueError` and the menu prompts again.
- Ledger.ReadLabels: `read_labels` also catches every other exception
  (lines 54-55), such as a decoding error. Only the missing file is
  modelled.
- Newline translation on reading: the text is the file's contents after
  Python's universal-newline handling.
- Ledger.RecordLineRoundTrip: assumes that the filename and the label are
  non-empty and free of whitespace. Otherwise the line does not round-trip,
  as Ledger.SpacedFilenameMisread shows.
- Menu.ChooseClass: when the replies run out, `input` would raise
  `EOFError`. The model returns no class instead.

=== FILE: centroids.dfy ===
/** `generate_sorted_data` (guess_image.py:19-41): one average embedding per
    class folder of the sorted corpus. The directory listing is an input,
    and each file carries the embedding the network gives it. */
module Centroids {
  import opened Wrappers
  import opened Text
  import opened Vectors
  import opened Dicts

  /** A file in a class folder, with what `transform_image` returns for it. */
  datatype Image = Image(name: string, features: Embedding)

  /** An entry of the sorted root: a class folder with its files in listing
      order, or anything that is not a directory. */
  datatype Entry = Folder(name: string, files: seq<Image>) | NotFolder(name: string)

  /** Per-class centroids in the order the folders were listed. */
  type CentroidMap = Dict<string, Embedding>

  /** `filename.lower().endswith((".jpg", ".jpeg", ".png"))` */
  predicate IsImageName(name: string) {
    var n := Lower(name);
    EndsWith(n, ".jpg") || EndsWith(n, ".jpeg") || EndsWith(n, ".png")
  }

  /** `type_features`: embeddings of the files with an image name, in
      listing order; every other file is skipped. */
  function ImageFeatures(files: seq<Image>): (vs: seq<Embedding>)
    ensures |vs| <= |files|
  {
    if |files| == 0 then []
    else
      var last := files[|files| - 1];
      ImageFeatures(files[..|files| - 1]) + (if IsImageName(last.name) then [last.features] else [])
  }

  /** The coordinate-wise mean of `vs`, over the coordinates of the first
      embedding. `None` is the `IndexError` Python raises when a later
      embedding is shorter than the first; longer ones are cut. */
  function Centroid(vs: seq<Embedding>): (r: Option<Embedding>)
    requires |vs| > 0
    ensures r.None? <==> exists k :: 0 <= k < |vs| && |vs[k]| < |vs[0]|
    ensures r.Some? ==> |r.value| == |vs[0]|
    ensures r.Some? ==> forall i :: 0 <= i < |vs[0]| ==> AllHave(vs, i)
    ensures r.Some? ==> forall i :: 0 <= i < |vs[0]| ==> r.value[i] == ColumnSum(vs, i) / (|vs| as real)
  {
    if exists k :: 0 <= k < |vs| && |vs[k]| < |vs[0]| then None
    else Some(seq(|vs[0]|, i requires 0 <= i < |vs[0]| => ColumnSum(vs, i) / (|vs| as real)))
  }

  /** A folder that contributes a centroid: a directory with at least one
      image file. */
  predicate Qualifies(e: Entry) {
    e.Folder? && |ImageFeatures(e.files)| > 0
  }

  /** The folder's centroid; `None` when averaging raises. */
  function FolderCentroid(e: Entry): Option<Embedding>
    requires Qualifies(e)
  {
    Centroid(ImageFeatures(e.files))
  }

  /** The loop of `generate_sorted_data`: folders in listing order, each
      qualifying one stored under its name; `None` when any average raises. */
  function BuildCentroids(entries: seq<Entry>): (r: Option<CentroidMap>)
    ensures r.None? <==> exists j :: 0 <= j < |entries| && Qualifies(entries[j]) && FolderCentroid(entries[j]).None?
  {
    if |entries| == 0 then Some([])
    else
      var init := entries[..|entries| - 1];
      var e := entries[|entries| - 1];
      match BuildCentroids(init)
      case None => None
      case Some(d) =>
        if Qualifies(e) then
          match FolderCentroid(e)
          case None => None
          case Some(c) => Some(Put(d, e.name, c))
        else Some(d)
  }

  /** No qualifying folder after position `j` has the same name. */
  ghost predicate LastNamed(entries: seq<Entry>, j: nat)
    requires j < |entries|
  {
    forall j' :: j < j' < |entries| && Qualifies(entries[j']) ==> entries[j'].name != entries[j].name
  }

  /** The names of the qualifying folders, in listing order. */
  function QualifyingNames(entries: seq<Entry>): seq<string> {
    if |entries| == 0 then []
    else
      var e := entries[|entries| - 1];
      QualifyingNames(entries[..|entries| - 1]) + (if Qualifies(e) then [e.name] else [])
  }

  /** Each class name is a key at most once. */
  lemma {:induction false} BuildCentroidsWf(entries: seq<Entry>)
    requires BuildCentroids(entries).Some?
    ensures Wf(BuildCentroids(entries).value)
    decreases |entries|
  {
    if |entries| > 0 {
      var init := entries[..|entries| - 1];
      var e := entries[|entries| - 1];
      BuildCentroidsWf(init);
      if Qualifies(e) {
        PutKeepsWf(BuildCentroids(init).value, e.name, FolderCentroid(e).value);
      }
    }
  }

  /** Some qualifying folder is listed under `name`. */
  ghost predicate HasQualifying(entries: seq<Entry>, name: string) {
    exists j :: 0 <= j < |entries| && Qualifies(entries[j]) && entries[j].name == name
  }

  lemma HasQualifyingSnoc(entries: seq<Entry>, name: string)
    requires |entries| > 0
    ensures HasQualifying(entries, name) <==>
      HasQualifying(entries[..|entries| - 1], name)
      || (Qualifies(entries[|entries| - 1]) && entries[|entries| - 1].name == name)
  {
    var init := entries[..|entries| - 1];
    if HasQualifying(init, name) {
      var j :| 0 <= j < |init| && Qualifies(init[j]) && init[j].name == name;
      assert entries[j] == init[j];
    }
    if HasQualifying(entries, name) {
      var j :| 0 <= j < |entries| && Qualifies(entries[j]) && entries[j].name == name;
      if j < |init| {
        assert init[j] == entries[j];
      }
    }
  }

  /** The map has a key for every qualifying folder name, and no other;
      a folder without image files gets no entry. */
  lemma {:induction false} BuildCentroidsKeys(entries: seq<Entry>, name: string)
    requires BuildCentroids(entries).Some?
    ensures HasKey(BuildCentroids(entries).value, name) <==> HasQualifying(entries, name)
    decreases |entries|
  {
    if |entries| > 0 {
      var init := entries[..|entries| - 1];
      var e := entries[|entries| - 1];
      var d := BuildCentroids(init).value;
      BuildCentroidsKeys(init, name);
      HasQualifyingSnoc(entries, name);
      if Qualifies(e) {
        GetPut(d, e.name, FolderCentroid(e).value, name);
      }
    }
  }

  /** Each key holds the mean of the images of the last folder listed under
      that name (with a real directory listing, the only such folder). */
  lemma {:induction false} BuildCentroidsValues(entries: seq<Entry>, j: nat)
    requires BuildCentroids(entries).Some?
    requires j < |entries| && Qualifies(entries[j]) && LastNamed(entries, j)
    ensures FolderCentroid(entries[j]).Some?
    ensures Get(BuildCentroids(entries).value, entries[j].name) == FolderCentroid(entries[j])
    decreases |entries|
  {
    var init := entries[..|entries| - 1];
    var e := entries[|entries| - 1];
    var name := entries[j].name;
    var d := BuildCentroids(init).value;
    if j < |init| {
      assert init[j] == entries[j];
      assert LastNamed(init, j) by {
        forall j' | j < j' < |init| && Qualifies(init[j'])
          ensures init[j'].name != init[j].name
        {
          assert init[j'] == entries[j'];
        }
      }
      BuildCentroidsValues(init, j);
      if Qualifies(e) {
        assert e.name != name;
        var c := FolderCentroid(e).value;
        assert BuildCentroids(entries).value == Put(d, e.name, c);
        GetPut(d, e.name, c, name);
      } else {
        assert BuildCentroids(entries).value == d;
      }
    } else {
      var c := FolderCentroid(e).value;
      assert BuildCentroids(entries).value == Put(d, e.name, c);
      GetPut(d, e.name, c, name);
    }
  }

  /** When folder names are distinct, the map lists the qualifying folders
      in the order the directory listing gave them. */
  lemma {:induction false} BuildCentroidsOrder(entries: seq<Entry>)
    requires BuildCentroids(entries).Some?
    requires forall i, j :: 0 <= i < j < |entries| ==> entries[i].name != entries[j].name
    ensures |BuildCentroids(entries).value| == |QualifyingNames(entries)|
    ensures forall i :: 0 <= i < |QualifyingNames(entries)| ==>
      BuildCentroids(entries).value[i].0 == QualifyingNames(entries)[i]
    decreases |entries|
  {
    if |entries| > 0 {
      var init := entries[..|entries| - 1];
      var e := entries[|entries| - 1];
      var d := BuildCentroids(init).value;
      BuildCentroidsOrder(init);
      if Qualifies(e) {
        BuildCentroidsKeys(init, e.name);
        assert !HasQualifying(init, e.name) by {
          forall j | 0 <= j < |init| && Qualifies(init[j]) ensures init[j].name != e.name {
            assert entries[j] == init[j];
          }
        }
      }
    }
  }

  /** Some file with an image name has embedding `v`. */
  ghost predicate HasImage(files: seq<Image>, v: Embedding) {
    exists k :: 0 <= k < |files| && IsImageName(files[k].name) && files[k].features == v
  }

  lemma HasImageSnoc(files: seq<Image>, v: Embedding)
    requires |files| > 0
    ensures HasImage(files, v) <==>
      HasImage(files[..|files| - 1], v)
      || (IsImageName(files[|files| - 1].name) && files[|files| - 1].features == v)
  {
    var init := files[..|files| - 1];
    if HasImage(init, v) {
      var k :| 0 <= k < |init| && IsImageName(init[k].name) && init[k].features == v;
      assert files[k] == init[k];
    }
    if HasImage(files, v) {
      var k :| 0 <= k < |files| && IsImageName(files[k].name) && files[k].features == v;
      if k < |init| {
        assert init[k] == files[k];
      }
    }
  }

  /** Exactly the files with an image name contribute an embedding. */
  lemma {:induction false} ImageFeaturesMembers(files: seq<Image>, v: Embedding)
    ensures v in ImageFeatures(files) <==> HasImage(files, v)
    decreases |files|
  {
    if |files| > 0 {
      ImageFeaturesMembers(files[..|files| - 1], v);
      HasImageSnoc(files, v);
    }
  }

  /** A single file contributes its embedding exactly when its name is an
      image name. */
  lemma ImageFeaturesSingle(f: Image)
    ensures ImageFeatures([f]) == if IsImageName(f.name) then [f.features] else []
  {
  }

  /** The contributions of two listings in a row are those of the first
      followed by those of the second: order and repetitions are kept. */
  lemma {:induction false} ImageFeaturesAppend(f: seq<Image>, g: seq<Image>)
    ensures ImageFeatures(f + g) == ImageFeatures(f) + ImageFeatures(g)
    decreases |g|
  {
    if |g| == 0 {
      assert f + g == f;
    } else {
      var g' := g[..|g| - 1];
      assert (f + g)[..|f + g| - 1] == f + g';
      ImageFeaturesAppend(f, g');
    }
  }

  /** When every file has an image name, all of them contribute, in
      listing order. */
  lemma {:induction false} ImageFeaturesAllImages(files: seq<Image>)
    requires forall k :: 0 <= k < |files| ==> IsImageName(files[k].name)
    ensures |ImageFeatures(files)| == |files|
    ensures forall k :: 0 <= k < |files| ==> ImageFeatures(files)[k] == files[k].features
    decreases |files|
  {
    if |files| > 0 {
      var init := files[..|files| - 1];
      forall k | 0 <= k < |init| ensures IsImageName(init[k].name) {
        assert init[k] == files[k];
      }
      ImageFeaturesAllImages(init);
      assert IsImageName(files[|files| - 1].name);
      forall k | 0 <= k < |init| ensures ImageFeatures(files)[k] == files[k].features {
        assert init[k] == files[k];
      }
    }
  }

  /** A folder whose files all lack an image name contributes nothing. */
  lemma {:induction false} ImageFeaturesNoImages(files: seq<Image>)
    requires forall k :: 0 <= k < |files| ==> !IsImageName(files[k].name)
    ensures ImageFeatures(files) == []
    decreases |files|
  {
    if |files| > 0 {
      var init := files[..|files| - 1];
      forall k | 0 <= k < |init| ensures !IsImageName(init[k].name) {
        assert init[k] == files[k];
      }
      ImageFeaturesNoImages(init);
      assert !IsImageName(files[|files| - 1].name);
    }
  }

  /** The suffix test ignores case. */
  lemma ImageNameIgnoresCase(name: string)
    ensures IsImageName(name) <==> IsImageName(Lower(name))
  {
    var n := Lower(name);
    forall i | 0 <= i < |n| ensures Lower(n)[i] == n[i] {
      assert LowerChar(LowerChar(name[i])) == LowerChar(name[i]);
    }
    assert Lower(n) == n;
  }

  /** An upper-case extension counts. */
  lemma UpperCaseImageName()
    ensures IsImageName("A.JPG")
  {
    var n := Lower("A.JPG");
    assert n[1..] == ".jpg";
  }

  /** A name that merely contains an extension does not. */
  lemma InnerExtensionNotImage()
    ensures !IsImageName("a.jpg.bak")
  {
    var n := Lower("a.jpg.bak");
    assert n[8] == 'k';
  }

  /** Averaging copies of one embedding gives that embedding back. */
  lemma CentroidOfCopies(vs: seq<Embedding>, v: Embedding)
    requires |vs| > 0
    requires forall k :: 0 <= k < |vs| ==> vs[k] == v
    ensures Centroid(vs) == Some(v)
  {
    assert vs[0] == v;
    var c := Centroid(vs).value;
    forall i | 0 <= i < |v| ensures c[i] == v[i] {
      ColumnSumOfCopies(vs, v, i);
      DivOfMul(v[i], |vs| as real);
    }
    assert c == v;
  }

  /** Every coordinate of a centroid lies between the smallest and the
      largest value that coordinate takes in the class. */
  lemma CentroidBounded(vs: seq<Embedding>, i: nat, lo: real, hi: real)
    requires |vs| > 0 && Centroid(vs).Some? && i < |vs[0]|
    requires forall k :: 0 <= k < |vs| ==> lo <= vs[k][i] <= hi
    ensures lo <= Centroid(vs).value[i] <= hi
  {
    var n := |vs| as real;
    var c := Centroid(vs).value;
    ColumnSumBounds(vs, i, lo, hi);
    DivBounds(ColumnSum(vs, i), n, lo, hi);
  }

  /** Listing order does not matter: when all of a class's embeddings have
      one length, any reordering of them has the same centroid. */
  lemma CentroidPermutation(vs: seq<Embedding>, ws: seq<Embedding>)
    requires |vs| > 0
    requires forall k :: 0 <= k < |vs| ==> |vs[k]| == |vs[0]|
    requires multiset(vs) == multiset(ws)
    ensures |ws| > 0
    ensures Centroid(vs) == Centroid(ws)
  {
    assert |vs| == |multiset(vs)| == |multiset(ws)| == |ws|;
    assert forall k :: 0 <= k < |ws| ==> |ws[k]| == |vs[0]| by {
      forall k | 0 <= k < |ws| ensures |ws[k]| == |vs[0]| {
        assert ws[k] in multiset(vs);
      }
    }
    assert |ws[0]| == |vs[0]|;
    assert Centroid(vs).Some? && Centroid(ws).Some?;
    var cv, cw := Centroid(vs).value, Centroid(ws).value;
    forall i | 0 <= i < |vs[0]| ensures cv[i] == cw[i] {
      assert AllHave(vs, i);
      ColumnSumPermutation(vs, ws, i);
    }
    assert cv == cw;
  }

}

=== FILE: classify.dfy ===
/** `guess_image_class` (guess_image.py:61-73) with the query's embedding
    given: a linear scan over the centroid map in iteration order, keeping
    the class whose distance is strictly smaller than the best so far. */
module Classify {
  import opened Wrappers
  import opened Vectors
  import opened Dicts
  import opened Centroids
  import opened Text

  /** Entry `j` is the nearest among the first `n` entries and no earlier
      entry is as near. */
  ghost predicate FirstNearestIn(q: Embedding, d: CentroidMap, n: nat, j: int)
    requires n <= |d|
  {
    && 0 <= j < n
    && (forall i :: 0 <= i < n ==> SqDist(q, d[j].1) <= SqDist(q, d[i].1))
    && (forall i :: 0 <= i < j ==> SqDist(q, d[i].1) > SqDist(q, d[j].1))
  }

  ghost predicate FirstNearest(q: Embedding, d: CentroidMap, j: int) {
    FirstNearestIn(q, d, |d|, j)
  }

  /** One pass of the loop from entry `i` on, `best` being the entry that
      currently holds `min_distance` (`None` while it is still infinite). */
  function Scan(q: Embedding, d: CentroidMap, i: nat, best: Option<nat>): (r: Option<nat>)
    requires i <= |d|
    requires best.None? <==> i == 0
    requires best.Some? ==> FirstNearestIn(q, d, i, best.value)
    ensures r.None? <==> |d| == 0
    ensures r.Some? ==> FirstNearest(q, d, r.value)
    decreases |d| - i
  {
    if i == |d| then best
    else if best.None? || SqDist(q, d[i].1) < SqDist(q, d[best.value].1) then
      Scan(q, d, i + 1, Some(i))
    else
      Scan(q, d, i + 1, best)
  }

  /** The predicted class: `None` for an empty map, otherwise the first class
      in iteration order whose centroid is nearest to the query. */
  function Nearest(q: Embedding, d: CentroidMap): (r: Option<string>)
    ensures r.None? <==> |d| == 0
    ensures r.Some? ==> HasKey(d, r.value)
    ensures r.Some? ==> exists j :: FirstNearest(q, d, j) && d[j].0 == r.value
  {
    match Scan(q, d, 0, None)
    case None => None
    case Some(j) => Some(d[j].0)
  }

  /** At most one entry is the first nearest: the contract of `Nearest`
      fixes its answer. */
  lemma FirstNearestUnique(q: Embedding, d: CentroidMap, i: int, j: int)
    requires FirstNearest(q, d, i) && FirstNearest(q, d, j)
    ensures i == j
  {
    // Naming both distances lets the solver compare them.
    var di, dj := SqDist(q, d[i].1), SqDist(q, d[j].1);
  }

  /** No class is nearer to the query than the predicted one. */
  lemma NearestIsClosest(q: Embedding, d: CentroidMap, j: int, k: int)
    requires Wf(d) && 0 <= j < |d| && 0 <= k < |d|
    requires Nearest(q, d) == Some(d[j].0)
    ensures SqDist(q, d[j].1) <= SqDist(q, d[k].1)
  {
    var j' :| FirstNearest(q, d, j') && d[j'].0 == d[j].0;
    assert j' == j;
  }

  /** On a tie the earlier entry wins: a later, equally near class is never
      predicted. */
  lemma NearestTieGoesEarlier(q: Embedding, d: CentroidMap, i: int, j: int)
    requires Wf(d) && 0 <= i < j < |d|
    requires SqDist(q, d[i].1) <= SqDist(q, d[j].1)
    ensures Nearest(q, d) != Some(d[j].0)
  {
    assert !FirstNearest(q, d, j);
    var r := Nearest(q, d).value;
    var j' :| FirstNearest(q, d, j') && d[j'].0 == r;
    assert j' != j;
    assert d[j'].0 != d[j].0;
  }

  /** A query equal to one of pairwise different centroids, all of the
      query's length, is classified as that centroid's class. */
  lemma NearestExactMatch(q: Embedding, d: CentroidMap, j: int)
    requires 0 <= j < |d| && d[j].1 == q
    requires forall i :: 0 <= i < |d| ==> |d[i].1| == |q|
    requires forall i, i' :: 0 <= i < i' < |d| ==> d[i].1 != d[i'].1
    ensures Nearest(q, d) == Some(d[j].0)
  {
    SqDistZeroIff(q, q);
    assert FirstNearest(q, d, j) by {
      forall i | 0 <= i < |d| && i != j ensures SqDist(q, d[i].1) > 0.0 {
        SqDistZeroIff(q, d[i].1);
        assert q[..|q|] == q && d[i].1[..|q|] == d[i].1;
      }
    }
    var j' :| FirstNearest(q, d, j') && d[j'].0 == Nearest(q, d).value;
    FirstNearestUnique(q, d, j, j');
  }

  /** `v1.jpg`, `v2.jpg` and `v3.jpg` are image names. */
  lemma ExampleImageNames()
    ensures IsImageName("v1.jpg") && IsImageName("v2.jpg") && IsImageName("v3.jpg")
  {
    assert Lower("v1.jpg")[2..] == ".jpg";
    assert Lower("v2.jpg")[2..] == ".jpg";
    assert Lower("v3.jpg")[2..] == ".jpg";
  }

  /** The mean of (0, 0) and (2, 0) is (1, 0). */
  lemma CatMean()
    ensures Centroid([[0.0, 0.0], [2.0, 0.0]]) == Some([1.0, 0.0])
  {
    var vs: seq<Embedding> := [[0.0, 0.0], [2.0, 0.0]];
    assert vs[..1] == [[0.0, 0.0]] && vs[..1][..0] == [];
    assert ColumnSum(vs[..1], 0) == 0.0 && ColumnSum(vs[..1], 1) == 0.0;
    assert ColumnSum(vs, 0) == 2.0 && ColumnSum(vs, 1) == 0.0;
    var cc := Centroid(vs).value;
    assert cc[0] == 1.0 && cc[1] == 0.0;
    assert cc == [1.0, 0.0];
  }

  /** A `cat` folder holding two images, at (0, 0) and (2, 0). */
  function CatFolder(n1: string, n2: string): Entry {
    Folder("cat", [Image(n1, [0.0, 0.0]), Image(n2, [2.0, 0.0])])
  }

  /** A `dog` folder holding one image, at (10, 10). */
  function DogFolder(n3: string): Entry {
    Folder("dog", [Image(n3, [10.0, 10.0])])
  }

  lemma CatFolderCentroid(n1: string, n2: string)
    requires IsImageName(n1) && IsImageName(n2)
    ensures Qualifies(CatFolder(n1, n2)) && FolderCentroid(CatFolder(n1, n2)) == Some([1.0, 0.0])
  {
    var files := CatFolder(n1, n2).files;
    assert ImageFeatures(files) == [[0.0, 0.0], [2.0, 0.0]] by {
      ImageFeaturesAllImages(files);
    }
    CatMean();
  }

  lemma DogFolderCentroid(n3: string)
    requires IsImageName(n3)
    ensures Qualifies(DogFolder(n3)) && FolderCentroid(DogFolder(n3)) == Some([10.0, 10.0])
  {
    var files := DogFolder(n3).files;
    assert ImageFeatures(files) == [[10.0, 10.0]] by {
      ImageFeaturesAllImages(files);
    }
    CentroidOfCopies([[10.0, 10.0]], [10.0, 10.0]);
  }

  lemma CatOnlyCentroids(n1: string, n2: string)
    requires IsImageName(n1) && IsImageName(n2)
    ensures BuildCentroids([CatFolder(n1, n2)]) == Some([("cat", [1.0, 0.0])])
  {
    CatFolderCentroid(n1, n2);
    assert [CatFolder(n1, n2)][..0] == [];
    assert Put([], "cat", [1.0, 0.0]) == [("cat", [1.0, 0.0])];
  }

  /** Two classes: `cat` with images at (0, 0) and (2, 0), `dog` with one
      at (10, 10), listed in that order. The centroids are (1, 0) and
      (10, 10), in the same order. */
  lemma CatDogCentroids(n1: string, n2: string, n3: string)
    requires IsImageName(n1) && IsImageName(n2) && IsImageName(n3)
    ensures BuildCentroids([CatFolder(n1, n2), DogFolder(n3)])
      == Some([("cat", [1.0, 0.0]), ("dog", [10.0, 10.0])])
  {
    var es := [CatFolder(n1, n2), DogFolder(n3)];
    var cat: CentroidMap := [("cat", [1.0, 0.0])];
    assert BuildCentroids(es[..1]) == Some(cat) by {
      CatOnlyCentroids(n1, n2);
      assert es[..1] == [CatFolder(n1, n2)];
    }
    assert BuildCentroids(es) == Some(Put(cat, "dog", [10.0, 10.0])) by {
      DogFolderCentroid(n3);
    }
    DogAfterCat();
  }

  /** The same listing with the image names `v1.jpg`, `v2.jpg`, `v3.jpg`. */
  lemma CatDogExample()
    ensures BuildCentroids([CatFolder("v1.jpg", "v2.jpg"), DogFolder("v3.jpg")])
      == Some([("cat", [1.0, 0.0]), ("dog", [10.0, 10.0])])
  {
    ExampleImageNames();
    CatDogCentroids("v1.jpg", "v2.jpg", "v3.jpg");
  }

  lemma DogAfterCat()
    ensures Put([("cat", [1.0, 0.0])], "dog", [10.0, 10.0]) == [("cat", [1.0, 0.0]), ("dog", [10.0, 10.0])]
  {
    var cat: CentroidMap := [("cat", [1.0, 0.0])];
    assert !HasKey(cat, "dog");
    var r := Put(cat, "dog", [10.0, 10.0]);
    assert r == cat + [("dog", [10.0, 10.0])];
  }

  /** The query (1, 1) is at squared distance 1 from `cat` and 162 from
      `dog`, so it is classified as `cat`. */
  lemma CatDogQuery()
    ensures Nearest([1.0, 1.0], [("cat", [1.0, 0.0]), ("dog", [10.0, 10.0])]) == Some("cat")
  {
    var d := [("cat", [1.0, 0.0]), ("dog", [10.0, 10.0])];
    var q: Embedding := [1.0, 1.0];
    assert SqDistUpTo(q, d[0].1, 1) == 0.0 && SqDistUpTo(q, d[1].1, 1) == 81.0;
    assert SqDist(q, d[0].1) == 1.0;
    assert SqDist(q, d[1].1) == 162.0;
    assert FirstNearest([1.0, 1.0], d, 0);
    var j :| FirstNearest([1.0, 1.0], d, j) && d[j].0 == Nearest([1.0, 1.0], d).value;
    FirstNearestUnique([1.0, 1.0], d, 0, j);
  }

}

=== FILE: dicts.dfy ===
/** A Python `dict`: key/value pairs kept in insertion order, which is the
    order `dict.items()` iterates in. */
module Dicts {
  import opened Wrappers

  type Dict<K, V> = seq<(K, V)>

  /** `k in d` */
  predicate HasKey<K(==), V>(d: Dict<K, V>, k: K) {
    exists i :: 0 <= i < |d| && d[i].0 == k
  }

  /** Every key occurs once, as in every dict Python builds. */
  ghost predicate Wf<K, V>(d: Dict<K, V>) {
    forall i, j :: 0 <= i < j < |d| ==> d[i].0 != d[j].0
  }

  /** The value stored under the first occurrence of `k`: the observer that
      states what assignment does. */
  function Get<K(==), V>(d: Dict<K, V>, k: K): (r: Option<V>)
    ensures r.None? <==> !HasKey(d, k)
    ensures r.Some? ==>
      exists i :: 0 <= i < |d| && d[i] == (k, r.value) && forall i' :: 0 <= i' < i ==> d[i'].0 != k
    ensures Wf(d) ==> forall i :: 0 <= i < |d| && d[i].0 == k ==> r == Some(d[i].1)
  {
    if |d| == 0 then None
    else if d[0].0 == k then Some(d[0].1)
    else Get(d[1..], k)
  }

  /** `d[k] = v`: an existing key keeps its position and takes the new value,
      a new key goes to the end. */
  function Put<K(==), V>(d: Dict<K, V>, k: K, v: V): (r: Dict<K, V>)
    ensures HasKey(d, k) ==> |r| == |d| && forall i :: 0 <= i < |d| ==> r[i].0 == d[i].0
    ensures !HasKey(d, k) ==> r == d + [(k, v)]
  {
    if |d| == 0 then [(k, v)]
    else if d[0].0 == k then
      assert ([(k, v)] + d[1..])[1..] == d[1..];
      [(k, v)] + d[1..]
    else
      var rest := Put(d[1..], k, v);
      assert ([d[0]] + rest)[1..] == rest;
      [d[0]] + rest
  }

  /** After `d[k] = v`, `k` holds `v` and every other key what it held. */
  lemma {:induction false} GetPut<K, V>(d: Dict<K, V>, k: K, v: V, k': K)
    ensures Get(Put(d, k, v), k') == if k' == k then Some(v) else Get(d, k')
    decreases |d|
  {
    if |d| > 0 && d[0].0 != k {
      var rest := Put(d[1..], k, v);
      assert ([d[0]] + rest)[1..] == rest;
      GetPut(d[1..], k, v, k');
    } else if |d| > 0 {
      assert ([(k, v)] + d[1..])[1..] == d[1..];
    }
  }

  /** Storing under a key keeps the keys distinct. */
  lemma {:induction false} PutKeepsWf<K(!new), V>(d: Dict<K, V>, k: K, v: V)
    requires Wf(d)
    ensures Wf(Put(d, k, v))
  {
    var r := Put(d, k, v);
    if HasKey(d, k) {
      forall i, j | 0 <= i < j < |r| ensures r[i].0 != r[j].0 {
        assert r[i].0 == d[i].0 && r[j].0 == d[j].0;
      }
    } else {
      forall i, j | 0 <= i < j < |r| ensures r[i].0 != r[j].0 {
        if j == |d| {
          assert r[j].0 == k && r[i] == d[i];
        }
      }
    }
  }

}

=== FILE: ledger.dfy ===
/** The label ledger `labels.txt`: `update_labels` (guess_image.py:75-77)
    appends one line per decision, `read_labels` (guess_image.py:43-56)
    reads the file back into a filename-to-label dict. */
module Ledger {
  import opened Wrappers
  import opened Text
  import opened Dicts

  /** Filename to label, in the order filenames first appeared. */
  type Labels = Dict<string, string>

  /** The line `update_labels` appends: the filename, one space, the label,
      a newline. */
  function RecordLine(filename: string, className: string): (r: string)
    ensures |r| == |filename| + |className| + 2
    ensures r[..|filename|] == filename && r[|filename|] == ' '
    ensures r[|filename| + 1..|r| - 1] == className
    ensures r[|r| - 1] == '\n'
  {
    filename + (" " + (className + "\n"))
  }

  /** One line of `read_labels`: its first two whitespace-separated pieces,
      if it has at least two. (`strip()` before `split()` changes nothing,
      as `split()` already drops outer whitespace.) */
  function ParseLine(line: string): (r: Option<(string, string)>)
    ensures r.None? <==> |Split(line)| < 2
    ensures r.Some? ==> r.value.0 == Split(line)[0] && r.value.1 == Split(line)[1]
    ensures r.Some? ==> IsToken(r.value.0) && IsToken(r.value.1)
  {
    var parts := Split(line);
    if |parts| >= 2 then Some((parts[0], parts[1])) else None
  }

  /** The loop of `read_labels` over the file's lines: each parsed line
      stores its label under its filename, a later line overwriting an
      earlier one. */
  function ReadLines(lines: seq<string>): (r: Labels)
  {
    if |lines| == 0 then []
    else
      var d := ReadLines(lines[..|lines| - 1]);
      match ParseLine(lines[|lines| - 1])
      case None => d
      case Some(rec) => Put(d, rec.0, rec.1)
  }

  /** `read_labels(path)`; `None` is a missing file, read as no labels. */
  function ReadLabels(file: Option<string>): (r: Labels)
    ensures file.None? ==> r == []
    ensures Wf(r)
  {
    match file
    case None => []
    case Some(text) =>
      ReadLinesWf(Lines(text));
      ReadLines(Lines(text))
  }

  /** The ledger after `update_labels`: opening in append mode creates a
      missing file. */
  function AppendRecord(file: Option<string>, filename: string, className: string): (r: string)
    ensures file.Some? ==> |file.value| < |r| && r[..|file.value|] == file.value
    ensures |RecordLine(filename, className)| <= |r|
    ensures r[|r| - |RecordLine(filename, className)|..] == RecordLine(filename, className)
    ensures Terminated(Some(r))
  {
    (if file.Some? then file.value else "") + RecordLine(filename, className)
  }

  /** Text that `read_labels` iterates cleanly: empty, or ending in a newline
      (as every file written only by `update_labels` is). */
  predicate Terminated(file: Option<string>) {
    file.None? || |file.value| == 0 || file.value[|file.value| - 1] == '\n'
  }

  // ---------------------------------------------------------------------
  // Parsing single lines
  // ---------------------------------------------------------------------

  lemma SplitSeparated(a: string, b: string, rest: string)
    requires IsToken(a) && IsToken(b)
    requires |rest| == 0 || IsSpace(rest[0])
    ensures Split(a + (" " + (b + rest))) == [a, b] + Split(rest)
  {
    SplitTokenSpace(a, b + rest);
    SplitSpaceToken(b, rest);
    ConsPair(a, b, Split(rest));
  }

  lemma ConsPair<T>(a: T, b: T, tail: seq<T>)
    ensures [a] + ([b] + tail) == [a, b] + tail
  {
    assert [a, b] == [a] + [b];
  }

  lemma SplitTokenSpace(w: string, t: string)
    requires IsToken(w)
    ensures Split(w + (" " + t)) == [w] + Split(" " + t)
  {
    var st := " " + t;
    assert st[0] == ' ';
    SplitToken(w, st);
  }

  lemma SplitSpaceToken(b: string, rest: string)
    requires IsToken(b)
    requires |rest| == 0 || IsSpace(rest[0])
    ensures Split(" " + (b + rest)) == [b] + Split(rest)
  {
    SplitSkipsSpaces(" ", b + rest);
    SplitToken(b, rest);
  }

  /** What `update_labels` writes, `read_labels` reads back, when neither the
      filename nor the className is empty or contains whitespace. */
  lemma RecordLineRoundTrip(filename: string, className: string)
    requires IsToken(filename) && IsToken(className)
    ensures ParseLine(RecordLine(filename, className)) == Some((filename, className))
    ensures IsLine(RecordLine(filename, className))
  {
    SplitSeparated(filename, className, "\n");
    SplitSkipsSpaces("\n", "");
    assert "\n" + "" == "\n";
    var l := RecordLine(filename, className);
    forall i | 0 <= i < |l| - 1 ensures l[i] != '\n' {
      if i < |filename| {
        assert l[i] == filename[i];
      } else if i > |filename| {
        assert l[i] == className[i - |filename| - 1];
      }
    }
  }

  /** A line's first two pieces are its record, whatever whitespace stands
      in front of, between and after them; pieces after the second are
      ignored. */
  lemma ExtraTokensIgnored(sp: string, a: string, w: string, b: string, rest: string)
    requires forall i :: 0 <= i < |sp| ==> IsSpace(sp[i])
    requires |w| > 0 && forall i :: 0 <= i < |w| ==> IsSpace(w[i])
    requires IsToken(a) && IsToken(b)
    requires |rest| == 0 || IsSpace(rest[0])
    ensures ParseLine(sp + a + w + b + rest) == Some((a, b))
  {
    assert sp + a + w + b + rest == sp + (a + (w + (b + rest)));
    SplitSkipsSpaces(sp, a + (w + (b + rest)));
    SplitToken(a, w + (b + rest));
    SplitSkipsSpaces(w, b + rest);
    SplitToken(b, rest);
  }

  /** A filename containing a space does not survive the round trip: the
      record of `my photo.jpg` as `cat` reads back as the label `photo.jpg`
      for the file `my`. */
  lemma SpacedFilenameMisread(first: string, second: string, className: string)
    requires IsToken(first) && IsToken(second) && IsToken(className)
    ensures ParseLine(RecordLine(first + " " + second, className)) == Some((first, second))
  {
    var rest := " " + (className + "\n");
    ExtraTokensIgnored("", first, " ", second, rest);
    assert "" + first + " " + second + rest == RecordLine(first + " " + second, className);
  }

  // ---------------------------------------------------------------------
  // Reading a whole ledger
  // ---------------------------------------------------------------------

  /** Every filename is a key once. */
  lemma {:induction false} ReadLinesWf(lines: seq<string>)
    ensures Wf(ReadLines(lines))
    decreases |lines|
  {
    if |lines| > 0 {
      var init := lines[..|lines| - 1];
      ReadLinesWf(init);
      match ParseLine(lines[|lines| - 1])
      case None =>
      case Some(rec) => PutKeepsWf(ReadLines(init), rec.0, rec.1);
    }
  }

  /** A line with fewer than two pieces adds nothing. */
  lemma ShortLineIgnored(lines: seq<string>, line: string)
    requires |Split(line)| < 2
    ensures ReadLines(lines + [line]) == ReadLines(lines)
  {
    assert (lines + [line])[..|lines|] == lines;
  }

  /** Some line names `filename`. */
  ghost predicate Named(lines: seq<string>, filename: string) {
    exists j :: 0 <= j < |lines| && NamesFile(lines[j], filename)
  }

  lemma NamedSnoc(lines: seq<string>, filename: string)
    requires |lines| > 0
    ensures Named(lines, filename) <==>
      Named(lines[..|lines| - 1], filename) || NamesFile(lines[|lines| - 1], filename)
  {
    var init := lines[..|lines| - 1];
    if Named(init, filename) {
      var j :| 0 <= j < |init| && NamesFile(init[j], filename);
      assert lines[j] == init[j];
    }
    if Named(lines, filename) {
      var j :| 0 <= j < |lines| && NamesFile(lines[j], filename);
      if j < |init| {
        assert init[j] == lines[j];
      }
    }
  }

  /** A filename has a label exactly when some line names it. */
  lemma {:induction false} LabelPresent(lines: seq<string>, filename: string)
    ensures Get(ReadLines(lines), filename).Some? <==> Named(lines, filename)
    decreases |lines|
  {
    if |lines| > 0 {
      var init := lines[..|lines| - 1];
      var d := ReadLines(init);
      LabelPresent(init, filename);
      NamedSnoc(lines, filename);
      match ParseLine(lines[|lines| - 1])
      case None =>
        assert ReadLines(lines) == d;
      case Some(rec) =>
        assert ReadLines(lines) == Put(d, rec.0, rec.1);
        GetPut(d, rec.0, rec.1, filename);
    }
  }

  /** The label read for a filename is the one on the last line naming it. */
  lemma {:induction false} LastLineWins(lines: seq<string>, filename: string, j: nat)
    requires j < |lines| && NamesFile(lines[j], filename) && LastFor(lines, j, filename)
    ensures Get(ReadLines(lines), filename) == Some(ParseLine(lines[j]).value.1)
    decreases |lines|
  {
    var init := lines[..|lines| - 1];
    var d := ReadLines(init);
    if j < |init| {
      assert init[j] == lines[j];
      assert LastFor(init, j, filename) by {
        forall j' | j < j' < |init| ensures !NamesFile(init[j'], filename) {
          assert init[j'] == lines[j'];
        }
      }
      LastLineWins(init, filename, j);
      assert !NamesFile(lines[|lines| - 1], filename);
      match ParseLine(lines[|lines| - 1])
      case None =>
        assert ReadLines(lines) == d;
      case Some(rec) =>
        assert ReadLines(lines) == Put(d, rec.0, rec.1);
        assert rec.0 != filename;
        GetPut(d, rec.0, rec.1, filename);
    } else {
      assert j == |lines| - 1;
      var rec := ParseLine(lines[|lines| - 1]).value;
      assert ReadLines(lines) == Put(d, rec.0, rec.1);
      GetPut(d, rec.0, rec.1, filename);
    }
  }

  ghost predicate NamesFile(line: string, filename: string) {
    ParseLine(line).Some? && ParseLine(line).value.0 == filename
  }

  /** No line after `j` names `filename`. */
  ghost predicate LastFor(lines: seq<string>, j: nat, filename: string) {
    forall j' :: j < j' < |lines| ==> !NamesFile(lines[j'], filename)
  }

  /** A missing ledger reads as empty. */
  lemma MissingLedgerEmpty()
    ensures ReadLabels(None) == []
  {
  }

  /** Appending a record and reading the ledger back gives the old labels
      with that filename set to that label. */
  lemma AppendThenRead(file: Option<string>, filename: string, className: string)
    requires IsToken(filename) && IsToken(className)
    requires Terminated(file)
    ensures Terminated(Some(AppendRecord(file, filename, className)))
    ensures ReadLabels(Some(AppendRecord(file, filename, className))) == Put(ReadLabels(file), filename, className)
  {
    var text := if file.Some? then file.value else "";
    assert ReadLabels(file) == ReadLines(Lines(text)) by {
      assert Lines("") == [];
    }
    assert AppendRecord(file, filename, className) == text + RecordLine(filename, className);
    ReadAppended(text, filename, className);
  }

  /** Reading a terminated text with one more record line is a `Put`. */
  lemma ReadAppended(text: string, filename: string, className: string)
    requires IsToken(filename) && IsToken(className)
    requires |text| == 0 || text[|text| - 1] == '\n'
    ensures ReadLines(Lines(text + RecordLine(filename, className)))
         == Put(ReadLines(Lines(text)), filename, className)
  {
    var line := RecordLine(filename, className);
    var ls := Lines(text);
    RecordLineRoundTrip(filename, className);
    LinesAppend(text, line);
    assert (ls + [line])[..|ls|] == ls;
  }

  /** The ledger text left by a sequence of `update_labels` calls on a
      missing file. */
  function Written(records: seq<(string, string)>): string {
    if |records| == 0 then ""
    else
      var r := records[|records| - 1];
      AppendRecord(Some(Written(records[..|records| - 1])), r.0, r.1)
  }

  /** The labels those decisions amount to, later ones overriding. */
  function Decided(records: seq<(string, string)>): Labels {
    if |records| == 0 then []
    else
      var r := records[|records| - 1];
      Put(Decided(records[..|records| - 1]), r.0, r.1)
  }

  /** A ledger written only by `update_labels` reads back as the decisions
      it records, the last decision for a file winning. */
  lemma {:induction false} LedgerRoundTrip(records: seq<(string, string)>)
    requires forall i :: 0 <= i < |records| ==> IsToken(records[i].0) && IsToken(records[i].1)
    ensures Terminated(Some(Written(records)))
    ensures ReadLabels(Some(Written(records))) == Decided(records)
    decreases |records|
  {
    if |records| == 0 {
      assert Lines("") == [];
    } else {
      var init := records[..|records| - 1];
      var r := records[|records| - 1];
      assert forall i :: 0 <= i < |init| ==> init[i] == records[i];
      LedgerRoundTrip(init);
      AppendThenRead(Some(Written(init)), r.0, r.1);
    }
  }

}

=== FILE: menu.dfy ===
/** The correction menu of `main` (guess_image.py:148-168): after a wrong
    prediction the user picks a listed class by its number, or `n` and
    then the name of a new class. */
module Menu {
  import opened Wrappers
  import opened Text

  /** What one reply to the menu prompt does. */
  datatype Step = NewClass | Pick(className: string) | Reprompt

  /** One pass of the prompt loop: `n` (either case) asks for a new class;
      an integer `k` picks the `k`-th listed class when there is one; anything
      else prompts again. */
  function Resolve(reply: string, classes: seq<string>): (s: Step)
    ensures s.NewClass? <==> Lower(reply) == "n"
    ensures s.Pick? <==> Lower(reply) != "n" && ParseInt(reply).Some? && 0 <= ParseInt(reply).value - 1 < |classes|
    ensures s.Pick? ==> s.className == classes[ParseInt(reply).value - 1]
  {
    if Lower(reply) == "n" then NewClass
    else
      match ParseInt(reply)
      case Some(k) => if 0 <= k - 1 < |classes| then Pick(classes[k - 1]) else Reprompt
      case None => Reprompt
  }

  /** Only the replies `n` and `N` ask for a new class. */
  lemma NewClassReplies(reply: string)
    ensures Lower(reply) == "n" <==> reply == "n" || reply == "N"
  {
    if Lower(reply) == "n" {
      assert |reply| == 1;
      assert LowerChar(reply[0]) == 'n';
      assert reply == [reply[0]];
    }
    if reply == "N" {
      assert Lower(reply) == [LowerChar('N')];
    }
  }

  /** The number printed in front of a class (`enumerate` from 1) selects
      exactly that class. */
  lemma MenuNumberSelects(classes: seq<string>, i: nat)
    requires i < |classes|
    ensures Resolve(ShowNat(i + 1), classes) == Pick(classes[i])
  {
    var s := ShowNat(i + 1);
    ParseShowNat(i + 1, "");
    NewClassReplies(s);
    assert IsDigit(s[0]);
  }

  /** Numbers outside the list, 0 and negative ones included, prompt again. */
  lemma OutOfRangeReprompts(classes: seq<string>, k: nat)
    requires k == 0 || k > |classes|
    ensures Resolve(ShowNat(k), classes) == Reprompt
    ensures Resolve("-" + ShowNat(k), classes) == Reprompt
  {
    var s := ShowNat(k);
    ParseShowNat(k, "");
    NewClassReplies(s);
    assert IsDigit(s[0]);
    NewClassReplies("-" + s);
    assert ("-" + s)[1] == s[0];
  }

  /** A negative number prompts again, whatever the list. */
  lemma NegativeReprompts(classes: seq<string>, k: nat)
    ensures Resolve("-" + ShowNat(k), classes) == Reprompt
  {
    var s := ShowNat(k);
    ParseShowNat(k, "");
    NewClassReplies("-" + s);
    assert ("-" + s)[1] == s[0];
  }

  /** A number behind the ASCII separator U+001C is no number to `int()`,
      so the menu prompts again. */
  lemma ControlCharReprompts(classes: seq<string>)
    ensures Resolve("\U{1C}1", classes) == Reprompt
  {
    ControlCharNotIntSpace();
    NewClassReplies("\U{1C}1");
  }

  /** The prompt loop over the user's successive replies, a new class's
      name being the reply after `n`. Returns the chosen class, the class
      list afterwards (a new class is appended), and the position of the
      reply that ended the loop; `None` when the replies ran out first. */
  method ChooseClass(replies: seq<string>, classes: seq<string>)
    returns (chosen: Option<string>, classes': seq<string>, at: nat)
    ensures at <= |replies|
    ensures forall j :: 0 <= j < at ==> Resolve(replies[j], classes).Reprompt?
    ensures at == |replies| ==> chosen.None? && classes' == classes
    ensures at < |replies| ==>
      match Resolve(replies[at], classes)
      case Pick(c) => chosen == Some(c) && classes' == classes
      case NewClass =>
        if at + 1 < |replies| then chosen == Some(replies[at + 1]) && classes' == classes + [replies[at + 1]]
        else chosen.None? && classes' == classes
      case Reprompt => false
  {
    at := 0;
    while at < |replies|
      invariant at <= |replies|
      invariant forall j :: 0 <= j < at ==> Resolve(replies[j], classes).Reprompt?
    {
      match Resolve(replies[at], classes)
      case NewClass =>
        if at + 1 < |replies| {
          var name := replies[at + 1];
          return Some(name), classes + [name], at;
        }
        return None, classes, at;
      case Pick(c) =>
        return Some(c), classes, at;
      case Reprompt =>
        at := at + 1;
    }
    return None, classes, at;
  }

}

=== FILE: text.dfy ===
/** The few pieces of Python string handling the program relies on:
    `str.lower()` for the suffix and menu tests, `str.split()` for ledger
    lines, iteration over a text file's lines, and `int()` on a menu reply. */
module Text {
  import opened Wrappers

  /** The characters `str.split()` with no argument treats as separators:
      the ASCII controls 9-13 and 28-31, the space, and the Unicode
      separator code points Python counts as whitespace. */
  predicate IsSpace(c: char) {
    var n := c as int;
    || 9 <= n <= 13
    || 28 <= n <= 32
    || n == 0x85 || n == 0xA0 || n == 0x1680
    || 0x2000 <= n <= 0x200A
    || n == 0x2028 || n == 0x2029 || n == 0x202F || n == 0x205F || n == 0x3000
  }

  predicate NoSpace(s: string) {
    forall i :: 0 <= i < |s| ==> !IsSpace(s[i])
  }

  /** What `str.split()` can return as one piece: non-empty, no separator. */
  predicate IsToken(s: string) {
    |s| > 0 && NoSpace(s)
  }

  function LowerChar(c: char): char {
    if 'A' <= c <= 'Z' then (c as int - 'A' as int + 'a' as int) as char else c
  }

  /** `s.lower()` on ASCII letters. */
  function Lower(s: string): (r: string)
    ensures |r| == |s|
    ensures forall i :: 0 <= i < |s| ==> r[i] == LowerChar(s[i])
  {
    if |s| == 0 then [] else [LowerChar(s[0])] + Lower(s[1..])
  }

  /** `s.endswith(suffix)` */
  predicate EndsWith(s: string, suffix: string) {
    |suffix| <= |s| && s[|s| - |suffix|..] == suffix
  }

  // ---------------------------------------------------------------------
  // str.split()
  // ---------------------------------------------------------------------

  /** The longest prefix of `s` without a separator. */
  function Word(s: string): (w: string)
    ensures w <= s
    ensures NoSpace(w)
    ensures |w| == |s| || IsSpace(s[|w|])
    ensures |s| > 0 && !IsSpace(s[0]) ==> |w| > 0
  {
    if |s| == 0 || IsSpace(s[0]) then [] else [s[0]] + Word(s[1..])
  }

  /** `s.split()`: the maximal runs of non-separators, in order. Leading,
      trailing and repeated separators produce no empty pieces. */
  function Split(s: string): (ws: seq<string>)
    ensures forall i :: 0 <= i < |ws| ==> IsToken(ws[i])
    decreases |s|
  {
    if |s| == 0 then []
    else if IsSpace(s[0]) then Split(s[1..])
    else
      var w := Word(s);
      [w] + Split(s[|w|..])
  }

  /** Separators in front of a string do not change how it splits. */
  lemma {:induction false} SplitSkipsSpaces(sp: string, t: string)
    requires forall i :: 0 <= i < |sp| ==> IsSpace(sp[i])
    ensures Split(sp + t) == Split(t)
    decreases |sp|
  {
    if |sp| > 0 {
      assert (sp + t)[1..] == sp[1..] + t;
      SplitSkipsSpaces(sp[1..], t);
    } else {
      assert sp + t == t;
    }
  }

  lemma {:induction false} WordOfToken(w: string, t: string)
    requires NoSpace(w)
    requires |t| == 0 || IsSpace(t[0])
    ensures Word(w + t) == w
    decreases |w|
  {
    if |w| > 0 {
      assert (w + t)[1..] == w[1..] + t;
      WordOfToken(w[1..], t);
    } else {
      assert w + t == t;
    }
  }

  /** A token followed by a separator (or by nothing) splits off as the
      first piece. */
  lemma SplitToken(w: string, t: string)
    requires IsToken(w)
    requires |t| == 0 || IsSpace(t[0])
    ensures Split(w + t) == [w] + Split(t)
  {
    WordOfToken(w, t);
    assert (w + t)[|w|..] == t;
  }

  // ---------------------------------------------------------------------
  // Iterating over the lines of a text file
  // ---------------------------------------------------------------------

  /** One line as file iteration yields it: ends in its only newline. */
  predicate IsLine(l: string) {
    |l| > 0 && l[|l| - 1] == '\n' && forall i :: 0 <= i < |l| - 1 ==> l[i] != '\n'
  }

  /** Length of the first line of `t`, newline included. */
  function LineEnd(t: string): (n: nat)
    ensures n <= |t|
    ensures |t| > 0 ==> n > 0
    ensures forall i :: 0 <= i < n - 1 ==> t[i] != '\n'
    ensures n == |t| || t[n - 1] == '\n'
  {
    if |t| == 0 then 0
    else if t[0] == '\n' then 1
    else 1 + LineEnd(t[1..])
  }

  /** `list(open(path))`: the text cut after every newline; a last line
      without a newline is kept as it is. */
  function Lines(t: string): (ls: seq<string>)
    ensures forall i :: 0 <= i < |ls| ==> |ls[i]| > 0
    decreases |t|
  {
    if |t| == 0 then []
    else
      var n := LineEnd(t);
      [t[..n]] + Lines(t[n..])
  }

  /** The lines written one after another. */
  function Join(ls: seq<string>): string {
    if |ls| == 0 then "" else ls[0] + Join(ls[1..])
  }

  /** Iteration loses nothing: the lines put back together are the text,
      and every line but the last ends in its only newline. */
  lemma {:induction false} LinesJoin(t: string)
    ensures Join(Lines(t)) == t
    ensures forall i :: 0 <= i < |Lines(t)| - 1 ==> IsLine(Lines(t)[i])
    decreases |t|
  {
    if |t| > 0 {
      var n := LineEnd(t);
      var rest := Lines(t[n..]);
      LinesJoin(t[n..]);
      assert ([t[..n]] + rest)[1..] == rest;
      assert t[..n] + t[n..] == t;
      if |rest| > 0 {
        assert |t[n..]| > 0;
        assert IsLine(t[..n]);
      }
    }
  }

  /** No line read holds a newline before its end: the last line, too,
      stops at the first newline. */
  lemma {:induction false} LinesNoInnerNewline(t: string)
    ensures forall i, k :: 0 <= i < |Lines(t)| && 0 <= k < |Lines(t)[i]| - 1 ==> Lines(t)[i][k] != '\n'
    decreases |t|
  {
    if |t| > 0 {
      var n := LineEnd(t);
      var rest := Lines(t[n..]);
      LinesNoInnerNewline(t[n..]);
      assert Lines(t) == [t[..n]] + rest;
      forall i, k | 0 <= i < |Lines(t)| && 0 <= k < |Lines(t)[i]| - 1 ensures Lines(t)[i][k] != '\n' {
        if i > 0 {
          assert Lines(t)[i] == rest[i - 1];
        }
      }
    }
  }

  lemma {:induction false} LineEndOfLine(l: string)
    requires IsLine(l)
    ensures LineEnd(l) == |l|
    decreases |l|
  {
    if l[0] != '\n' {
      assert IsLine(l[1..]);
      LineEndOfLine(l[1..]);
    }
  }

  lemma {:induction false} LineEndAppend(t: string, u: string)
    requires |t| > 0 && t[|t| - 1] == '\n'
    ensures LineEnd(t + u) == LineEnd(t)
    decreases |t|
  {
    if t[0] != '\n' {
      assert (t + u)[1..] == t[1..] + u;
      LineEndAppend(t[1..], u);
    }
  }

  /** Appending a whole line to newline-terminated text adds exactly that
      line to what iteration yields. */
  lemma {:induction false} LinesAppend(t: string, l: string)
    requires |t| == 0 || t[|t| - 1] == '\n'
    requires IsLine(l)
    ensures Lines(t + l) == Lines(t) + [l]
    decreases |t|
  {
    if |t| == 0 {
      assert t + l == l;
      LinesOfLine(l);
    } else {
      var n := LineEnd(t);
      LinesFirst(t, l);
      LinesAppend(t[n..], l);
      var first, rest := t[..n], Lines(t[n..]);
      assert [first] + (rest + [l]) == ([first] + rest) + [l];
    }
  }

  /** A single line iterates as itself. */
  lemma LinesOfLine(l: string)
    requires IsLine(l)
    ensures Lines(l) == [l]
  {
    LineEndOfLine(l);
    assert l[|l|..] == [];
    assert l[..|l|] == l;
  }

  /** Text after a complete first line splits off that same line. */
  lemma LinesFirst(t: string, u: string)
    requires |t| > 0 && t[|t| - 1] == '\n'
    ensures LineEnd(t) <= |t|
    ensures Lines(t + u) == [t[..LineEnd(t)]] + Lines(t[LineEnd(t)..] + u)
  {
    var n := LineEnd(t);
    LineEndAppend(t, u);
    assert (t + u)[..n] == t[..n];
    assert (t + u)[n..] == t[n..] + u;
  }

  // ---------------------------------------------------------------------
  // Decimal numbers: the menu's `f"{i}."` and `int(choice)`
  // ---------------------------------------------------------------------

  predicate IsDigit(c: char) {
    '0' <= c <= '9'
  }

  predicate AllDigits(s: string) {
    forall i :: 0 <= i < |s| ==> IsDigit(s[i])
  }

  function DigitChar(d: nat): char
    requires d < 10
  {
    ('0' as int + d) as char
  }

  /** The value of a string of decimal digits, most significant first. */
  function DigitsValue(s: string): nat
    requires AllDigits(s)
  {
    if |s| == 0 then 0
    else DigitsValue(s[..|s| - 1]) * 10 + (s[|s| - 1] as int - '0' as int)
  }

  /** `str(n)` for a natural number. */
  function ShowNat(n: nat): (s: string)
    ensures |s| > 0 && AllDigits(s)
  {
    if n < 10 then [DigitChar(n)] else ShowNat(n / 10) + [DigitChar(n % 10)]
  }

  lemma {:induction false} ShowNatValue(n: nat)
    ensures DigitsValue(ShowNat(n)) == n
  {
    if n >= 10 {
      var s := ShowNat(n);
      assert s[..|s| - 1] == ShowNat(n / 10);
      ShowNatValue(n / 10);
    }
  }

  /** The whitespace `int()` ignores around a number: the ASCII characters
      ` \t\n\v\f\r`, and every non-ASCII character `str.split()` treats
      as whitespace. The ASCII separators 28-31, which `str.split()`
      accepts, are not among them. */
  predicate IsIntSpace(c: char) {
    var n := c as int;
    || 9 <= n <= 13
    || n == 32
    || (n >= 128 && IsSpace(c))
  }

  function TrimStart(s: string): (r: string)
    ensures |r| == 0 || !IsIntSpace(r[0])
    decreases |s|
  {
    if |s| > 0 && IsIntSpace(s[0]) then TrimStart(s[1..]) else s
  }

  function TrimEnd(s: string): (r: string)
    ensures |r| == 0 || !IsIntSpace(r[|r| - 1])
    decreases |s|
  {
    if |s| > 0 && IsIntSpace(s[|s| - 1]) then TrimEnd(s[..|s| - 1]) else s
  }

  /** `int(s)` on a decimal literal: surrounding whitespace is ignored,
      one sign is allowed, then at least one digit and nothing else. */
  function ParseInt(s: string): (r: Option<int>)
  {
    ParseLiteral(TrimEnd(TrimStart(s)))
  }

  /** A decimal literal without padding: an optional sign, then digits. */
  function ParseLiteral(t: string): (r: Option<int>)
  {
    if |t| > 0 && (t[0] == '+' || t[0] == '-') then
      if |t| > 1 && AllDigits(t[1..]) then
        Some(if t[0] == '-' then -(DigitsValue(t[1..]) as int) else DigitsValue(t[1..]))
      else None
    else if |t| > 0 && AllDigits(t) then Some(DigitsValue(t))
    else None
  }

  /** `int(str(n)) == n`, also with a sign and with surrounding whitespace. */
  lemma ParseShowNat(n: nat, pad: string)
    requires forall i :: 0 <= i < |pad| ==> IsIntSpace(pad[i])
    ensures ParseInt(ShowNat(n)) == Some(n)
    ensures ParseInt(pad + ShowNat(n) + pad) == Some(n)
    ensures ParseInt("+" + ShowNat(n)) == Some(n)
    ensures ParseInt("-" + ShowNat(n)) == Some(-(n as int))
  {
    var s := ShowNat(n);
    ShowNatValue(n);
    TrimNoSpace(s);
    TrimPadded(pad, s);
    TrimNoSpace("+" + s);
    assert ("+" + s)[1..] == s;
    TrimNoSpace("-" + s);
    assert ("-" + s)[1..] == s;
  }

  lemma TrimNoSpace(s: string)
    requires |s| > 0 && !IsIntSpace(s[0]) && !IsIntSpace(s[|s| - 1])
    ensures TrimEnd(TrimStart(s)) == s
  {
  }

  lemma {:induction false} TrimPadded(pad: string, s: string)
    requires forall i :: 0 <= i < |pad| ==> IsIntSpace(pad[i])
    requires |s| > 0 && !IsIntSpace(s[0]) && !IsIntSpace(s[|s| - 1])
    ensures TrimEnd(TrimStart(pad + s + pad)) == s
  {
    TrimStartPadded(pad, s + pad);
    assert pad + s + pad == pad + (s + pad);
    TrimEndPadded(s, pad);
  }

  lemma {:induction false} TrimStartPadded(pad: string, s: string)
    requires forall i :: 0 <= i < |pad| ==> IsIntSpace(pad[i])
    requires |s| > 0 && !IsIntSpace(s[0])
    ensures TrimStart(pad + s) == s
    decreases |pad|
  {
    if |pad| > 0 {
      assert (pad + s)[1..] == pad[1..] + s;
      TrimStartPadded(pad[1..], s);
    } else {
      assert pad + s == s;
    }
  }

  lemma {:induction false} TrimEndPadded(s: string, pad: string)
    requires forall i :: 0 <= i < |pad| ==> IsIntSpace(pad[i])
    requires |s| > 0 && !IsIntSpace(s[|s| - 1])
    ensures TrimEnd(s + pad) == s
    decreases |pad|
  {
    if |pad| > 0 {
      assert (s + pad)[..|s + pad| - 1] == s + pad[..|pad| - 1];
      TrimEndPadded(s, pad[..|pad| - 1]);
    } else {
      assert s + pad == s;
    }
  }

  /** The separator U+001C splits words but does not surround a number:
      `int("\x1c1")` raises. */
  lemma ControlCharNotIntSpace()
    ensures IsSpace('\U{1C}') && !IsIntSpace('\U{1C}')
    ensures Split("\U{1C}1") == ["1"]
    ensures ParseInt("\U{1C}1").None?
  {
    SplitSkipsSpaces("\U{1C}", "1");
    assert "\U{1C}1" == "\U{1C}" + "1";
    SplitToken("1", "");
    assert "1" + "" == "1";
  }

  predicate AllIntSpace(s: string) {
    forall i :: 0 <= i < |s| ==> IsIntSpace(s[i])
  }

  /** `s` is the decimal literal `sign + ds`, padded by `int()` whitespace,
      and `k` is its value. */
  predicate IntLiteralAs(s: string, k: int, p1: string, sign: string, ds: string, p2: string) {
    && s == p1 + sign + ds + p2
    && AllIntSpace(p1) && AllIntSpace(p2)
    && (sign == "" || sign == "+" || sign == "-")
    && |ds| > 0 && AllDigits(ds)
    && k == if sign == "-" then -(DigitsValue(ds) as int) else DigitsValue(ds) as int
  }

  ghost predicate IntLiteral(s: string, k: int) {
    exists p1, sign, ds, p2 :: IntLiteralAs(s, k, p1, sign, ds, p2)
  }

  /** `TrimStart` drops a prefix of `int()` whitespace. */
  lemma {:induction false} TrimStartShape(s: string)
    ensures |TrimStart(s)| <= |s|
    ensures TrimStart(s) == s[|s| - |TrimStart(s)|..]
    ensures AllIntSpace(s[..|s| - |TrimStart(s)|])
    decreases |s|
  {
    if |s| > 0 && IsIntSpace(s[0]) {
      TrimStartShape(s[1..]);
      var m := |s| - |TrimStart(s)|;
      assert s[1..][..m - 1] == s[1..m];
      assert s[1..][|s| - 1 - |TrimStart(s)|..] == s[m..];
    }
  }

  /** `TrimEnd` drops a suffix of `int()` whitespace. */
  lemma {:induction false} TrimEndShape(s: string)
    ensures |TrimEnd(s)| <= |s|
    ensures TrimEnd(s) == s[..|TrimEnd(s)|]
    ensures AllIntSpace(s[|TrimEnd(s)|..])
    decreases |s|
  {
    if |s| > 0 && IsIntSpace(s[|s| - 1]) {
      var s' := s[..|s| - 1];
      TrimEndShape(s');
      var m := |TrimEnd(s)|;
      assert s'[..m] == s[..m];
      assert s[m..] == s'[m..] + [s[|s| - 1]];
    }
  }

  /** What `ParseLiteral` accepts is a sign and digits. */
  lemma LiteralAccepts(t: string) returns (sign: string, ds: string)
    requires ParseLiteral(t).Some?
    ensures t == sign + ds
    ensures sign == "" || sign == "+" || sign == "-"
    ensures |ds| > 0 && AllDigits(ds)
    ensures ParseLiteral(t).value == if sign == "-" then -(DigitsValue(ds) as int) else DigitsValue(ds) as int
  {
    if t[0] == '+' || t[0] == '-' {
      sign, ds := t[..1], t[1..];
      assert t == sign + ds;
    } else {
      sign, ds := "", t;
    }
  }

  /** Trimming only removes `int()` whitespace from the two ends. */
  lemma TrimmedPadding(s: string) returns (p1: string, p2: string)
    ensures s == p1 + TrimEnd(TrimStart(s)) + p2
    ensures AllIntSpace(p1) && AllIntSpace(p2)
  {
    var u := TrimStart(s);
    TrimStartShape(s);
    TrimEndShape(u);
    var t := TrimEnd(u);
    p1, p2 := s[..|s| - |u|], u[|t|..];
    assert u == t + p2;
    assert s == p1 + u;
  }

  /** Everything `ParseInt` accepts is a padded decimal literal of that value. */
  lemma ParseIntAccepts(s: string)
    requires ParseInt(s).Some?
    ensures IntLiteral(s, ParseInt(s).value)
  {
    var t := TrimEnd(TrimStart(s));
    var p1, p2 := TrimmedPadding(s);
    var sign, ds := LiteralAccepts(t);
    assert s == p1 + sign + ds + p2 by {
      assert p1 + t + p2 == p1 + sign + ds + p2;
    }
    assert IntLiteralAs(s, ParseInt(s).value, p1, sign, ds, p2);
  }

  /** A sign and digits are accepted with their value. */
  lemma LiteralValue(sign: string, ds: string)
    requires sign == "" || sign == "+" || sign == "-"
    requires |ds| > 0 && AllDigits(ds)
    ensures ParseLiteral(sign + ds) == Some(if sign == "-" then -(DigitsValue(ds) as int) else DigitsValue(ds) as int)
  {
    var t := sign + ds;
    if sign != "" {
      assert t[1..] == ds;
    } else {
      assert t == ds;
    }
  }

  /** Padding of `int()` whitespace around a literal is trimmed away. */
  lemma TrimLiteral(p1: string, t: string, p2: string)
    requires AllIntSpace(p1) && AllIntSpace(p2)
    requires |t| > 0 && !IsIntSpace(t[0]) && !IsIntSpace(t[|t| - 1])
    ensures TrimEnd(TrimStart(p1 + t + p2)) == t
  {
    TrimStartPadded(p1, t + p2);
    assert p1 + t + p2 == p1 + (t + p2);
    TrimEndPadded(t, p2);
  }

  /** Every padded decimal literal is accepted, with its value. */
  lemma ParseIntLiteral(s: string, k: int, p1: string, sign: string, ds: string, p2: string)
    requires IntLiteralAs(s, k, p1, sign, ds, p2)
    ensures ParseInt(s) == Some(k)
  {
    var t := sign + ds;
    assert TrimEnd(TrimStart(s)) == t by {
      assert t[0] == '+' || t[0] == '-' || IsDigit(t[0]);
      assert t[|t| - 1] == ds[|ds| - 1];
      assert s == p1 + t + p2;
      TrimLiteral(p1, t, p2);
    }
    LiteralValue(sign, ds);
  }

  /** `ParseInt(s)` is `k` exactly when `s` is a decimal literal of value
      `k`, with an optional sign and `int()` whitespace around it. */
  lemma ParseIntIff(s: string, k: int)
    ensures ParseInt(s) == Some(k) <==> IntLiteral(s, k)
  {
    if ParseInt(s) == Some(k) {
      ParseIntAccepts(s);
    }
    if IntLiteral(s, k) {
      var p1, sign, ds, p2 :| IntLiteralAs(s, k, p1, sign, ds, p2);
      ParseIntLiteral(s, k, p1, sign, ds, p2);
    }
  }

}

=== FILE: vectors.dfy ===
/** Embeddings and the arithmetic the classifier does on them: the
    per-coordinate sum used for averaging, and the squared Euclidean
    distance over the coordinates `zip` pairs up. */
module Vectors {

  /** What the embedding network returns for one image. */
  type Embedding = seq<real>

  function Min(a: nat, b: nat): nat {
    if a <= b then a else b
  }

  function Sq(x: real): real {
    x * x
  }

  /** `a * b` behind a name, so that the solver does not rewrite `x * x`
      away before it can use the product's sign. */
  ghost function Product(a: real, b: real): real {
    a * b
  }

  lemma ProductPositive(a: real, b: real)
    requires a > 0.0 && b > 0.0
    ensures Product(a, b) > 0.0
  {
  }

  /** A square is zero only for zero. */
  lemma SqZero(x: real)
    ensures Sq(x) == 0.0 <==> x == 0.0
  {
    if x > 0.0 {
      ProductPositive(x, x);
      assert Sq(x) == Product(x, x);
    } else if x < 0.0 {
      ProductPositive(-x, -x);
      assert Sq(x) == Product(-x, -x);
    }
  }

  lemma DivOfMul(x: real, n: real)
    requires n > 0.0
    ensures (n * x) / n == x
  {
  }

  lemma DivBounds(s: real, n: real, lo: real, hi: real)
    requires n > 0.0 && n * lo <= s <= n * hi
    ensures lo <= s / n <= hi
  {
  }

  /** Every embedding in `vs` has a coordinate `i`. */
  ghost predicate AllHave(vs: seq<Embedding>, i: nat) {
    forall k :: 0 <= k < |vs| ==> i < |vs[k]|
  }

  /** `sum(feature[i] for feature in vs)`, added left to right from 0. */
  function ColumnSum(vs: seq<Embedding>, i: nat): real
    requires AllHave(vs, i)
  {
    if |vs| == 0 then 0.0 else ColumnSum(vs[..|vs| - 1], i) + vs[|vs| - 1][i]
  }

  /** Sum of the squared differences of the first `n` coordinates. */
  function SqDistUpTo(a: Embedding, b: Embedding, n: nat): (r: real)
    requires n <= |a| && n <= |b|
    ensures r >= 0.0
  {
    if n == 0 then 0.0 else SqDistUpTo(a, b, n - 1) + Sq(a[n - 1] - b[n - 1])
  }

  /** The square of `calculate_distance(a, b)`: `zip` stops at the shorter
      vector, so only the first `Min(|a|, |b|)` coordinates count. */
  function SqDist(a: Embedding, b: Embedding): (r: real)
    ensures r >= 0.0
  {
    SqDistUpTo(a, b, Min(|a|, |b|))
  }

  lemma {:induction false} ColumnSumAppend(vs: seq<Embedding>, ws: seq<Embedding>, i: nat)
    requires AllHave(vs, i) && AllHave(ws, i)
    ensures AllHave(vs + ws, i)
    ensures ColumnSum(vs + ws, i) == ColumnSum(vs, i) + ColumnSum(ws, i)
    decreases |ws|
  {
    if |ws| > 0 {
      var ws' := ws[..|ws| - 1];
      assert (vs + ws)[..|vs + ws| - 1] == vs + ws';
      ColumnSumAppend(vs, ws', i);
    } else {
      assert vs + ws == vs;
    }
  }

  /** Taking the same element off both sides keeps multisets equal. */
  lemma MultisetCancel<T>(a: seq<T>, x: T, front: seq<T>, back: seq<T>)
    requires multiset(a + [x]) == multiset(front + [x] + back)
    ensures multiset(a) == multiset(front + back)
  {
    var l, r := multiset(a), multiset(front + back);
    assert multiset(a + [x]) == l + multiset{x};
    assert multiset(front + [x] + back) == r + multiset{x};
    forall y ensures l[y] == r[y] {
      assert (l + multiset{x})[y] == (r + multiset{x})[y];
    }
  }

  /** Taking embedding `k` out of a column sum subtracts its coordinate. */
  lemma ColumnSumRemove(ws: seq<Embedding>, k: nat, i: nat)
    requires k < |ws| && AllHave(ws, i)
    ensures AllHave(ws[..k] + ws[k + 1..], i)
    ensures ColumnSum(ws, i) == ColumnSum(ws[..k] + ws[k + 1..], i) + ws[k][i]
  {
    var front, back := ws[..k], ws[k + 1..];
    var one: seq<Embedding> := [ws[k]];
    assert ws == front + one + back;
    assert AllHave(front, i) by {
      forall m | 0 <= m < |front| ensures i < |front[m]| { assert front[m] == ws[m]; }
    }
    assert AllHave(back, i) by {
      forall m | 0 <= m < |back| ensures i < |back[m]| { assert back[m] == ws[k + 1 + m]; }
    }
    assert ColumnSum(one, i) == ws[k][i] by { assert |one[..0]| == 0; }
    ColumnSumAppend(front, back, i);
    ColumnSumAppend(front, one, i);
    ColumnSumAppend(front + one, back, i);
  }

  /** A column sum does not depend on the order of the embeddings. */
  lemma {:induction false} ColumnSumPermutation(vs: seq<Embedding>, ws: seq<Embedding>, i: nat)
    requires AllHave(vs, i)
    requires multiset(vs) == multiset(ws)
    ensures AllHave(ws, i)
    ensures ColumnSum(vs, i) == ColumnSum(ws, i)
    decreases |vs|
  {
    assert AllHave(ws, i) by {
      forall m | 0 <= m < |ws| ensures i < |ws[m]| {
        assert ws[m] in multiset(vs);
      }
    }
    assert |vs| == |multiset(vs)| == |multiset(ws)| == |ws|;
    if |vs| > 0 {
      var x := vs[|vs| - 1];
      var vs' := vs[..|vs| - 1];
      assert vs == vs' + [x];
      assert x in multiset(ws);
      var k :| 0 <= k < |ws| && ws[k] == x;
      assert ws == ws[..k] + [x] + ws[k + 1..];
      MultisetCancel(vs', x, ws[..k], ws[k + 1..]);
      assert AllHave(vs', i) by {
        forall m | 0 <= m < |vs'| ensures i < |vs'[m]| { assert vs'[m] == vs[m]; }
      }
      ColumnSumRemove(ws, k, i);
      ColumnSumPermutation(vs', ws[..k] + ws[k + 1..], i);
    }
  }

  /** Summing `n` copies of the same coordinate. */
  lemma {:induction false} ColumnSumOfCopies(vs: seq<Embedding>, v: Embedding, i: nat)
    requires forall k :: 0 <= k < |vs| ==> vs[k] == v
    requires i < |v|
    ensures AllHave(vs, i)
    ensures ColumnSum(vs, i) == (|vs| as real) * v[i]
    decreases |vs|
  {
    if |vs| > 0 {
      ColumnSumOfCopies(vs[..|vs| - 1], v, i);
    }
  }

  /** A column sum of values in `[lo, hi]` lies between `n * lo` and `n * hi`. */
  lemma {:induction false} ColumnSumBounds(vs: seq<Embedding>, i: nat, lo: real, hi: real)
    requires AllHave(vs, i)
    requires forall k :: 0 <= k < |vs| ==> lo <= vs[k][i] <= hi
    ensures (|vs| as real) * lo <= ColumnSum(vs, i) <= (|vs| as real) * hi
    decreases |vs|
  {
    if |vs| > 0 {
      ColumnSumBounds(vs[..|vs| - 1], i, lo, hi);
    }
  }

  /** Distance is symmetric. */
  lemma {:induction false} SqDistUpToSymmetric(a: Embedding, b: Embedding, n: nat)
    requires n <= |a| && n <= |b|
    ensures SqDistUpTo(a, b, n) == SqDistUpTo(b, a, n)
  {
    if n > 0 {
      SqDistUpToSymmetric(a, b, n - 1);
      assert Sq(a[n - 1] - b[n - 1]) == Sq(b[n - 1] - a[n - 1]);
    }
  }

  lemma SqDistSymmetric(a: Embedding, b: Embedding)
    ensures SqDist(a, b) == SqDist(b, a)
  {
    SqDistUpToSymmetric(a, b, Min(|a|, |b|));
  }

  /** The partial sum is zero exactly when the first `n` coordinates agree. */
  lemma {:induction false} SqDistUpToZero(a: Embedding, b: Embedding, n: nat)
    requires n <= |a| && n <= |b|
    ensures SqDistUpTo(a, b, n) == 0.0 <==> a[..n] == b[..n]
  {
    if n > 0 {
      SqDistUpToZero(a, b, n - 1);
      var d := a[n - 1] - b[n - 1];
      assert Sq(d) >= 0.0;
      SqZero(d);
      assert a[..n] == a[..n - 1] + [a[n - 1]];
      assert b[..n] == b[..n - 1] + [b[n - 1]];
      if a[..n] == b[..n] {
        assert a[..n - 1] == a[..n][..n - 1];
        assert b[..n - 1] == b[..n][..n - 1];
        assert a[n - 1] == a[..n][n - 1];
        assert b[n - 1] == b[..n][n - 1];
      }
    }
  }

  /** Distance zero exactly when the vectors agree on the coordinates `zip`
      pairs up; in particular every vector is at distance zero from itself. */
  lemma SqDistZeroIff(a: Embedding, b: Embedding)
    ensures SqDist(a, b) == 0.0 <==> a[..Min(|a|, |b|)] == b[..Min(|a|, |b|)]
    ensures a == b ==> SqDist(a, b) == 0.0
  {
    SqDistUpToZero(a, b, Min(|a|, |b|));
  }

  lemma {:induction false} SqDistUpToPrefix(a: Embedding, b: Embedding, a': Embedding, b': Embedding, n: nat)
    requires n <= |a| && n <= |b| && n <= |a'| && n <= |b'|
    requires a[..n] == a'[..n] && b[..n] == b'[..n]
    ensures SqDistUpTo(a, b, n) == SqDistUpTo(a', b', n)
  {
    if n > 0 {
      assert a[..n - 1] == a'[..n - 1] by { assert a[..n - 1] == a[..n][..n - 1]; assert a'[..n - 1] == a'[..n][..n - 1]; }
      assert b[..n - 1] == b'[..n - 1] by { assert b[..n - 1] == b[..n][..n - 1]; assert b'[..n - 1] == b'[..n][..n - 1]; }
      assert a[n - 1] == a[..n][n - 1] && a'[n - 1] == a'[..n][n - 1];
      assert b[n - 1] == b[..n][n - 1] && b'[n - 1] == b'[..n][n - 1];
      SqDistUpToPrefix(a, b, a', b', n - 1);
    }
  }

  /** Coordinates past the shorter vector's length play no part: the
      distance is that of the two vectors cut to the common length, and a
      longer vector may be extended freely. */
  lemma SqDistTruncates(a: Embedding, b: Embedding, extra: Embedding)
    ensures SqDist(a, b) == SqDist(a[..Min(|a|, |b|)], b[..Min(|a|, |b|)])
    ensures |a| >= |b| ==> SqDist(a + extra, b) == SqDist(a, b)
  {
    var m := Min(|a|, |b|);
    SqDistUpToPrefix(a, b, a[..m], b[..m], m);
    if |a| >= |b| {
      assert (a + extra)[..m] == a[..m];
      SqDistUpToPrefix(a + extra, b, a, b, m);
    }
  }

}

=== FILE: wrappers.dfy ===
/** An optional value: `None` stands where the Python code returns `None`
    or raises an exception that ends the run. */
module Wrappers {

  datatype Option<+T> = None | Some(value: T)

}
